=== FILE: README.md ===
# Weekend-helper agent: a Dafny model

The system is a small conversational agent in two processes.

- The **agent client** (`agent_fun.py`) keeps a chat history that starts with
  a system prompt. It reads user lines and asks a language model for a JSON
  decision. The decision either names a tool and its arguments, or gives a
  final answer. Tool calls go to the tool host. Each tool result is
  summarised into one sentence and appended to the history. A turn consults
  the model at most eight times and then gives up with a canned request to
  rephrase. Input that mentions "trivia" skips the model and calls the trivia
  tool directly. An empty line, "exit" or "quit" ends the session.
- The **tool host** (`server_fun.py`) serves five tools: `get_weather`,
  `book_recs`, `random_joke`, `random_dog` and `trivia`. Each fetches one
  JSON document over HTTP and reshapes it into a small dict.

The model is organised as follows.

- `Wrappers`: `Option` and `Result`.
- `Json`: decoded JSON values, `dict.get` and Python truthiness.
- `PyRuntime`: the library calls the code relies on but whose internals are
  not modelled (`json.loads`, `json.dumps`, `str()`, `html.unescape`,
  exception messages, dict key order). They are a `Runtime` value passed in,
  so every property holds for any behaviour of them.
- `Text`: `str.strip()` (with an independent reference definition and a
  uniqueness proof), `str.lower()` and substring search.
- `Agent`: `llm_json`, `to_plain_text` and `summarize_tool_result`.
- `TurnLoop`: the bounded decision loop over an abstract driver.
- `Conversation`: the client's driver, the exit test, the trivia shortcut,
  one turn, and the whole session over a sequence of input lines.
- `Server`: the five tools as functions of the decoded HTTP response.
  A Python exception is an `Err`.
- `Interplay`: what happens when the client reads what the host actually
  returns.

The language model and the tool host are oracles in the model. Each is a
function of the history at the moment it is consulted. Within a session the
history grows strictly between any two consultations, so every sequence of
replies and tool outcomes is covered. An uncaught exception in the client is
the `Crashed` ending of a turn, and it stops the session.

Two facts about the client and host together are proved in `Interplay`.

- The summariser's templates are keyed by "weather", "book", "joke" and
  "dog", but the host serves its tools as `get_weather`, `book_recs`,
  `random_joke` and `random_dog`. So every served tool except trivia gets the
  generic `Tool '<name>' returned: <json>` line. In particular a served dog
  picture never reaches the dog template and its emoji sentence.
- The trivia shortcut reads `incorrect_answers` and `correct_answer`. The
  trivia tool returns `choices` and `answer` instead. So a served question is
  shown with an empty list of choices, and nothing is raised.

A model reply that is not JSON becomes the final answer. A reply that is
valid JSON but not an object crashes the client, because `decision.get`
raises on it. The model reads such a reply as a `Malformed` step, which ends
the turn as `Crashed`.

## Model

| member | source | states |
|---|---|---|
| Text.Strip | agent_fun.py:135 | The stripped input line has no whitespace at either end. |
| Text.StripIsStripOf | agent_fun.py:73 | Stripping returns a slice of the input with no edge whitespace, and everything outside that slice is whitespace. |
| Text.StripOfUnique | agent_fun.py:73 | Only one string satisfies that reference definition of stripping, so strip is fully determined by it. |
| Text.StripIdempotent | agent_fun.py:49 | Stripping an already stripped reply changes nothing. |
| Text.StripKeepsPrefix | agent_fun.py:53 | A string that begins with a non-space keeps, after stripping, its prefix up to any later non-space character. |
| Text.LowerIsWord | agent_fun.py:136 | A string lowers to a lower-case word exactly when it spells that word with each letter in either case. |
| Agent.LlmJson | agent_fun.py:43-63 | An unreachable model gives the final decision "Sorry, I had trouble reaching my brain: <error>". A reply whose stripped text is JSON gives the decoded value. Any other reply gives a final decision holding the stripped text. |
| Agent.ToPlainText | agent_fun.py:67-74 | The sanitised answer is the strip of the answer's string form, so it has no edge whitespace. |
| Agent.ToPlainTextIdempotent | agent_fun.py:67-74 | Sanitising an answer that is already sanitised returns it unchanged. |
| Agent.Summarize | agent_fun.py:78-112 | A non-JSON payload is echoed in "The '<name>' tool returned: ...". An unrecognised name gets the generic line with the dumped JSON. "dog" gets the fixed emoji sentence. "trivia" shows the question or the stock one. |
| Agent.WeatherDefaults | agent_fun.py:89-92 | A weather payload with neither key gets "unknown conditions" and "??" in the sentence. |
| Agent.BookDefaults | agent_fun.py:94-97 | A book payload with neither key gets "a great book" by "an author". |
| Agent.JokeDefault | agent_fun.py:99-101 | A joke payload without a joke gets the skeleton joke. |
| Agent.DogIgnoresPayload | agent_fun.py:103-104 | The dog summary is the same for every JSON payload. |
| TurnLoop.DecisionLoop | agent_fun.py:174-220 | At most 8 consultations. The history only grows. At most one call per consultation. Without a crash, each consultation adds one entry, plus one for giving up, and every consultation but the last issues a call. |
| TurnLoop.LoopEndsWithReply | agent_fun.py:179-220 | A loop that does not crash appends something, and its last entry is an assistant reply. |
| TurnLoop.LoopAppendsToolEntries | agent_fun.py:198-214 | Every entry the loop appends before its final reply is one a tool call produced. |
| TurnLoop.GiveUpUsesAllSteps | agent_fun.py:216-220 | The loop gives up only after every remaining step is used, and then its last entry is the request to rephrase. |
| TurnLoop.EndlessToolCallsGiveUp | agent_fun.py:175-220 | If every decision calls a tool and no call crashes, the loop makes one call per remaining step and then gives up. |
| TurnLoop.LoopCallsOnlyDecidedTools | agent_fun.py:187-199 | Every call the loop issues names a tool the driver decided on. |
| TurnLoop.AnswerEndsLoop | agent_fun.py:179-184 | A final decision ends the loop with one assistant entry and no call. |
| TurnLoop.UnknownToolEndsLoop | agent_fun.py:190-195 | An unknown tool name ends the loop with "Unknown tool: <name>" and no call. |
| TurnLoop.ToolCallContinuesLoop | agent_fun.py:198-214 | A tool call that adds an entry uses one step, and the loop goes on from the extended history. |
| Conversation.Classify | agent_fun.py:187-199 | A decision is only ever read as a tool call for a non-empty name the host listed. |
| Conversation.ClassifyCases | agent_fun.py:179-195 | An object decision answers exactly when "action" is "final". Otherwise the stripped action names the tool: it is called exactly when non-empty and listed, with "args" or {}, and reported as unknown otherwise. |
| Conversation.FinalDecisionAnswers | agent_fun.py:60-63 | The fallback final decision answers with its text, stripped. |
| Conversation.CallReaction | agent_fun.py:198-214 | A tool call adds a tool-tagged entry. A raised call adds "[Tool Error] Tool '<name>' failed: <error>". A returned call adds "[Tool Result] " and the summary of its payload. The payload is the first content item's text, or else the dump of the whole result. A payload the summariser cannot read crashes. |
| Conversation.DriverReactsWithToolEntries | agent_fun.py:203-214 | Every entry a tool call adds in this client is a "[Tool Error]" or "[Tool Result]" user entry. |
| Conversation.FirstUnhashable | agent_fun.py:159 | It finds no element exactly when every element is hashable. A found element is the first unhashable one in the list. |
| Conversation.FirstUnhashableAppend | agent_fun.py:157-159 | Appending the correct answer keeps the choices hashable exactly when they were hashable and the answer is hashable. |
| Conversation.ChoicesError | agent_fun.py:156-159 | Building the choices raises nothing exactly when one of these holds. If a truthy correct answer is appended, the incorrect answers are a list and all values are hashable. Otherwise the incorrect answers are a string, a dict, or a list of hashable values. |
| Conversation.TriviaShortcut | agent_fun.py:142-171 | No consultation and exactly the trivia call. One entry is added. It is the trivia summary exactly when the call returned a payload whose display raises nothing. Otherwise it is the assistant entry "Oops! Trivia failed: " followed by the tool's error when the call raised, or by the message of the exception the display raised. |
| Conversation.Respond | agent_fun.py:141-220 | After the user's entry, a turn ends through the trivia shortcut or the decision loop, never by quitting. It keeps the history as a prefix and uses at most 8 consultations. |
| Conversation.ExitInputSpellings | agent_fun.py:136 | The session ends exactly on the empty line and on "exit" or "quit" with each letter in either case. |
| Conversation.Turn | agent_fun.py:134-139 | A turn quits exactly on an empty, "exit" or "quit" line, in any case, and then changes nothing. Otherwise the stripped line is appended as the user's entry and the turn ends by the loop or the shortcut. |
| Conversation.TriviaTurnSkipsModel | agent_fun.py:142-171 | The trivia shortcut runs exactly for non-exit input containing "trivia" in any case. It consults no model, calls only trivia, and adds two entries. Such a turn is exactly the shortcut run on the history with the user's entry appended. |
| Conversation.Session | agent_fun.py:134-137 | Over its input lines, a session keeps its starting history as a prefix and uses at most 8 consultations per turn. No turn it ran had an exit line or quit, and only the last may have crashed. It stops exactly when that last turn crashed. Otherwise it exits at the next line, which is an exit input, or runs out of lines. With no turns run, nothing changes. |
| Conversation.SessionStep | agent_fun.py:134-220 | A turn that neither quits nor crashes, followed by a session over the remaining lines, is a session over all the lines. |
| Conversation.SessionFirstTurn | agent_fun.py:134-220 | An exit input on the first line ends the session with nothing recorded. A crashing first turn stops it after that turn. Otherwise the first turn's ending is the first one recorded, and the session's history, calls and consultations continue from that turn's: its history and calls are prefixes of the session's, and its consultations are counted. When it neither quits nor crashes, the rest of the session is the session over the remaining lines started from exactly that turn's history. |
| Conversation.NonJsonReplyIsTheAnswer | agent_fun.py:56-63 | A reply that is not JSON becomes the answer, stripped. |
| Conversation.JsonToolRequestIsCalled | agent_fun.py:56-57 | A reply that is a JSON object asking for a listed tool becomes a call of that tool, with the reply's "args" or {}. |
| Conversation.ApologyKeepsItsOpening | agent_fun.py:50-54 | Stripping the apology keeps its opening words whatever the error text. |
| Conversation.UnreachableModelApologises | agent_fun.py:43-54 | If the model cannot be reached, the decision is an answer starting "Sorry, I had trouble reaching my brain:". |
| Conversation.UnlistedToolIsReported | agent_fun.py:187-195 | A decision naming an unlisted tool ends the loop with the unknown-tool message, one consultation and no call. |
| Conversation.ToolFailureIsRecorded | agent_fun.py:198-204 | A listed tool that raises costs one step. Its error entry is appended and the loop continues. |
| Conversation.ToolResultIsSummarised | agent_fun.py:206-214 | A returned call costs one step. Its summary entry is appended and the loop continues. If the payload cannot be summarised, the turn crashes after that one call. |
| Conversation.LoopTurn | agent_fun.py:174-176 | Non-exit input without "trivia" goes to the decision loop from the history plus the user's entry. |
| Conversation.TurnCallsOnlyListedTools | agent_fun.py:142-199 | A turn calls only tools the host listed, or the trivia call of the shortcut. |
| Conversation.TurnEndsWithReply | agent_fun.py:174-220 | A loop turn that does not crash adds the user's entry and at least one more, and ends with an assistant entry. |
| Conversation.TurnAddsOnlyToolEntries | agent_fun.py:198-214 | Between the user's entry and the reply, a loop turn adds only tool-tagged entries. |
| Conversation.PersistentToolUseGivesUp | agent_fun.py:175-220 | A model that always calls listed tools, with tools that always raise, leads to 8 consultations, 8 calls and the request to rephrase. |
| Conversation.SessionKeepsFirstEntry | agent_fun.py:130-139 | The first entry of the history, which in `main` is the system prompt, stays first for the whole session. |
| Server.Items | server_fun.py:44 | Iterating fails exactly on null, booleans and numbers. A list yields its elements. |
| Server.Unescape | server_fun.py:95 | A string is unescaped. Any other value that does not raise is returned unchanged. |
| Server.UnescapeAll | server_fun.py:96-98 | Unescaping a list succeeds exactly when each element does, and then gives each element's result in order. A failure is some element's failure. |
| Server.GetWeather | server_fun.py:28-29 | Succeeds exactly on an object and returns {"ok": true, "data": ...}. data is the response's "current" block, or {} when it has none. |
| Server.BookPickFields | server_fun.py:45-50 | A document without truthy author names is credited to "Unknown". Otherwise it goes to the first name. Title, year and work are the document's own or null. |
| Server.BookRecs | server_fun.py:43-52 | Succeeds exactly when the response is an object, its docs are iterable and every document yields a pick. The picks are then in document order. Otherwise it raises the first failing document's error. |
| Server.RandomJoke | server_fun.py:64-65 | Succeeds exactly on an object. The joke is the response's, or "No joke found". |
| Server.RandomDog | server_fun.py:74-75 | Succeeds exactly on an object. The image is the response's "message", or null. |
| Server.Trivia | server_fun.py:87-90 | Returns {"ok": false, "error": "no trivia"} exactly when the response is an object whose results are falsy. |
| Server.TriviaChoicesEndWithAnswer | server_fun.py:92-100 | A question lists every incorrect answer, unescaped and in order, then the unescaped correct answer, which is also the answer. |
| Server.TriviaAcceptsWellFormedResponse | server_fun.py:88-100 | A response in the database's documented shape always yields a question. |
| Interplay.ServedToolsGetGenericSummary | agent_fun.py:89-112 | Every served tool except trivia gets the generic summary line, never a template. |
| Interplay.DogPictureGetsGenericSummary | agent_fun.py:103-112 | A served dog picture is never summarised with the dog sentence. |
| Interplay.TriviaResultKeys | server_fun.py:88-100 | A trivia result has exactly the keys ok and error, or ok, question, choices and answer. |
| Interplay.ServedTriviaListsNoChoices | agent_fun.py:156-159 | For a served trivia result, the shortcut raises nothing and lists no choices. |
| Interplay.ServedTriviaIsShown | agent_fun.py:142-166 | A served trivia question is recorded as "Trivia question: " and the unescaped question, or the stock question when there was none. |

## Left out

- Console I/O: the `input()` prompt and every `print` are not modelled. The model records what reaches the history, the tool calls and the number of model consultations.
- Reaching the end of the input: Python's `input()` would raise EOFError there. The model ends the session with `InputExhausted` instead.
- The model and tool-host processes: the `mcp` stdio transport, the handshake, `list_tools` and the `ollama` chat call are oracles. The set of listed tool names is a parameter.
- The model name and the temperature option only configure the chat call.
- The text of the system prompt is not part of the model. A session starts from any history, and `Conversation.SessionKeepsFirstEntry` keeps its first entry first.
- `json.loads`, `json.dumps`, `str()`, `html.unescape`, exception messages and dict key order are opaque functions of a `Runtime` parameter. The dump of a whole tool result (`result.model_dump()`) is a value the tool host hands back.
- HTTP fetching in the tool host: the request, its timeout and `raise_for_status` are not modelled. Each tool is a function of the decoded response. The `limit` argument of `book_recs` and the coordinates of `get_weather` only feed the request.
- Floating point: JSON numbers are exact reals.
- Text.Lower: only ASCII letters are lowered. For the three tests that use it ("exit", "quit" and the substring "trivia"), this agrees with full Unicode lowering.
- Conversation.TriviaChoices: the order in which the shortcut lists its choices is the iteration order of a Python set, so the model gives the choices as a set.
- Agent.Summarize: its contract states the weather, book and joke sentences only through the lemmas about their defaults.
- Server.Trivia: its own contract states only the no-trivia case. The shape of a returned question is stated by `Server.TriviaChoicesEndWithAnswer`.
- Indexing a dict with `0` (first author of a dict-valued `author_name`) raises a KeyError for the key 0. The model writes that key as the number 0.

=== FILE: agent.dfy ===
/** The pure helpers of the agent client (agent_fun.py): the model-call
    fallback, the answer sanitiser and the tool-result summariser. */
module Agent {
  import opened Wrappers
  import opened Json
  import opened PyRuntime
  import opened Text

  /** What one consultation of the language model yields: the reply's
      message content, or the text of the exception the call raised. */
  datatype ModelReply = Reply(content: string) | Unreachable(error: string)

  const BrainTrouble: string := "Sorry, I had trouble reaching my brain: "

  /** The decision object `{"action": "final", "answer": answer}`. */
  function FinalDecision(answer: string): Json {
    JObj(map["action" := JStr("final"), "answer" := JStr(answer)])
  }

  /** `llm_json`: the decision object for one model reply. An unreachable
      model degrades to an apologetic final answer; a reply that is not JSON
      becomes a final answer holding the stripped reply. */
  function LlmJson(rt: Runtime, reply: ModelReply): (d: Json)
    ensures reply.Unreachable? ==> d == FinalDecision(BrainTrouble + reply.error)
    ensures reply.Reply? && rt.loads(Strip(reply.content)).Some? ==>
              d == rt.loads(Strip(reply.content)).value
    ensures reply.Reply? && rt.loads(Strip(reply.content)).None? ==>
              d == FinalDecision(Strip(reply.content))
  {
    match reply
    case Unreachable(e) => FinalDecision(BrainTrouble + e)
    case Reply(content) =>
      var txt := Strip(content);
      match rt.loads(txt)
      case Some(v) => v
      case None => FinalDecision(txt)
  }

  /** `to_plain_text`: the answer as a string, stripped. */
  function ToPlainText(rt: Runtime, answer: Json): (r: string)
    ensures IsStripOf(Format(rt, answer), r)
    ensures NoEdgeSpace(r)
  {
    StripIsStripOf(Format(rt, answer));
    Strip(Format(rt, answer))
  }

  /** Sanitising an already sanitised answer changes nothing. */
  lemma ToPlainTextIdempotent(rt: Runtime, answer: Json)
    ensures ToPlainText(rt, JStr(ToPlainText(rt, answer))) == ToPlainText(rt, answer)
  {
    StripIdempotent(Format(rt, answer));
  }

  // ---- summariser ----

  const Degree: string := "\U{00B0}"
  const DogSummary: string := "I fetched a cute dog picture for you! \U{1F436}"
  const DefaultJoke: string := "Why don't skeletons fight each other? They don't have the guts!"
  const DefaultQuestion: string := "What is the meaning of life?"

  /** The tool names the summariser has a template for. */
  const TemplateNames: set<string> := {"weather", "book", "joke", "dog", "trivia"}

  /** The templates that read keys of the decoded payload with `.get`. */
  const KeyedTemplateNames: set<string> := {"weather", "book", "joke", "trivia"}

  /** Summarising does not raise: either the payload is not JSON, or it is
      an object, or the template for `name` never looks inside it. */
  predicate Summarizable(rt: Runtime, name: string, payload: string) {
    match rt.loads(payload)
    case None => true
    case Some(d) => d.JObj? || name !in KeyedTemplateNames
  }

  /** `f"...{data.get(key, default)}..."` for a decoded object. */
  function Field(rt: Runtime, d: map<string, Json>, key: string, default: string): string {
    Format(rt, GetOr(d, key, JStr(default)))
  }

  /** `summarize_tool_result`: one sentence describing a tool's payload. */
  function Summarize(rt: Runtime, name: string, payload: string): (r: string)
    requires Summarizable(rt, name, payload)
    ensures rt.loads(payload).None? ==>
              r == "The '" + name + "' tool returned: " + payload
    ensures rt.loads(payload).Some? && name !in TemplateNames ==>
              r == "Tool '" + name + "' returned: " + rt.dumps(rt.loads(payload).value)
    ensures rt.loads(payload).Some? && name == "dog" ==> r == DogSummary
    ensures rt.loads(payload).Some? && name == "trivia" ==>
              r == "Trivia question: " + Field(rt, rt.loads(payload).value.fields, "question", DefaultQuestion)
  {
    match rt.loads(payload)
    case None => "The '" + name + "' tool returned: " + payload
    case Some(data) =>
      if name == "weather" then
        "The current weather is " + Field(rt, data.fields, "description", "unknown conditions")
        + " with a temperature of " + Field(rt, data.fields, "temperature", "??") + Degree + "C."
      else if name == "book" then
        "I found a book: '" + Field(rt, data.fields, "title", "a great book")
        + "' by " + Field(rt, data.fields, "author", "an author") + "."
      else if name == "joke" then
        "Here's a joke: " + Field(rt, data.fields, "joke", DefaultJoke)
      else if name == "dog" then
        DogSummary
      else if name == "trivia" then
        "Trivia question: " + Field(rt, data.fields, "question", DefaultQuestion)
      else
        "Tool '" + name + "' returned: " + rt.dumps(data)
  }

  /** The weather template substitutes its defaults for missing keys. */
  lemma WeatherDefaults(rt: Runtime, payload: string)
    requires rt.loads(payload).Some? && rt.loads(payload).value.JObj?
    requires "description" !in rt.loads(payload).value.fields
    requires "temperature" !in rt.loads(payload).value.fields
    ensures Summarize(rt, "weather", payload)
            == "The current weather is " + "unknown conditions" + " with a temperature of " + "??" + Degree + "C."
  {
    var d := rt.loads(payload).value.fields;
    assert Field(rt, d, "description", "unknown conditions") == "unknown conditions";
    assert Field(rt, d, "temperature", "??") == "??";
  }

  /** The book template substitutes its defaults for missing keys. */
  lemma BookDefaults(rt: Runtime, payload: string)
    requires rt.loads(payload).Some? && rt.loads(payload).value.JObj?
    requires "title" !in rt.loads(payload).value.fields
    requires "author" !in rt.loads(payload).value.fields
    ensures Summarize(rt, "book", payload) == "I found a book: '" + "a great book" + "' by " + "an author" + "."
  {
  }

  /** The joke template substitutes its default joke for a missing key. */
  lemma JokeDefault(rt: Runtime, payload: string)
    requires rt.loads(payload).Some? && rt.loads(payload).value.JObj?
    requires "joke" !in rt.loads(payload).value.fields
    ensures Summarize(rt, "joke", payload) == "Here's a joke: " + DefaultJoke
  {
  }

  /** The dog summary does not depend on the payload, as long as it is JSON. */
  lemma DogIgnoresPayload(rt: Runtime, p1: string, p2: string)
    requires rt.loads(p1).Some? && rt.loads(p2).Some?
    ensures Summarize(rt, "dog", p1) == Summarize(rt, "dog", p2)
  {
  }
}

=== FILE: conversation.dfy ===
/** The session loop of the agent client (`main` in agent_fun.py): the exit
    test, the trivia shortcut, the decision driver built from `llm_json`
    and the tool host, and the session over successive input lines.

    The language model and the tool host are oracles: each is a function of
    the conversation history at the moment it is consulted. History grows
    strictly between any two consultations within a session, so every
    sequence of model replies and tool outcomes is covered. */
module Conversation {
  import opened Wrappers
  import opened Json
  import opened PyRuntime
  import opened Text
  import opened Agent
  import opened TurnLoop

  const TriviaFailure: string := "Oops! Trivia failed: "

  /** One item of a tool result's content list. */
  datatype Content = TextContent(text: string) | OtherContent

  /** What the tool host does with a call: it raises (message text), or it
      returns a content list together with the JSON dump of the whole
      result object. */
  datatype ToolOutcome = Raised(error: string) | Returned(content: seq<Content>, dumped: string)

  /** The world a session runs in. */
  datatype Env = Env(
    rt: Runtime,
    tools: set<string>,                          // names the tool host listed at start-up
    llm: seq<Entry> -> ModelReply,               // the model, shown the history
    tool: (seq<Entry>, ToolCall) -> ToolOutcome) // the tool host, called at a history

  // ---- one decision ----

  /** How lines 179-195 read a decision value. */
  function Classify(rt: Runtime, tools: set<string>, d: Json): (s: Step)
    ensures s.Invoke? ==> s.call.name in tools && s.call.name != ""
  {
    if !d.JObj? then Malformed(d)
    else if Get(d.fields, "action") == Some(JStr("final")) then
      Answer(ToPlainText(rt, GetOr(d.fields, "answer", JStr(""))))
    else
      var name := Strip(Format(rt, GetOr(d.fields, "action", JStr(""))));
      if name == "" || name !in tools then Unknown(name)
      else Invoke(ToolCall(name, GetOr(d.fields, "args", EmptyObject)))
  }

  /** A decision object is an answer exactly when its "action" is the string
      "final" (compared before any stripping); otherwise the stripped `str()`
      of the action names the tool, which is called when it is non-empty and
      listed, and reported as unknown when it is not. */
  lemma ClassifyCases(rt: Runtime, tools: set<string>, d: map<string, Json>)
    ensures var s := Classify(rt, tools, JObj(d));
            && !s.Malformed?
            && (s.Answer? <==> Get(d, "action") == Some(JStr("final")))
            && (s.Answer? ==> s.text == ToPlainText(rt, GetOr(d, "answer", JStr(""))))
            && (!s.Answer? ==>
                  var name := Strip(Format(rt, GetOr(d, "action", JStr(""))));
                  && (s.Invoke? <==> name != "" && name in tools)
                  && (s.Unknown? ==> s.name == name)
                  && (s.Invoke? ==> s.call == ToolCall(name, GetOr(d, "args", EmptyObject))))
  {
  }

  /** A final decision built by `llm_json` answers with its text, stripped. */
  lemma FinalDecisionAnswers(rt: Runtime, tools: set<string>, answer: string)
    ensures Classify(rt, tools, FinalDecision(answer)) == Answer(Strip(answer))
  {
    assert Get(FinalDecision(answer).fields, "action") == Some(JStr("final"));
    assert GetOr(FinalDecision(answer).fields, "answer", JStr("")) == JStr(answer);
  }

  /** The decision the model makes when shown history `h` (line 176). */
  function DecisionAt(env: Env, h: seq<Entry>): Step {
    Classify(env.rt, env.tools, LlmJson(env.rt, env.llm(h)))
  }

  /** The text payload of a returned tool result inside the loop (207-210). */
  function LoopPayload(content: seq<Content>, dumped: string): string {
    if |content| > 0 && content[0].TextContent? then content[0].text else dumped
  }

  /** What calling a listed tool at history `h` adds (lines 198-214): an
      error entry when the call raises, the summary otherwise; a payload the
      summariser cannot read stops the program. */
  function CallReaction(env: Env, h: seq<Entry>, call: ToolCall): (r: Reaction)
    ensures r.Continue? ==> IsToolEntry(r.entry)
    ensures env.tool(h, call).Raised? ==> r == Continue(ToolErrorEntry(call.name, env.tool(h, call).error))
    ensures env.tool(h, call).Returned? ==>
              var p := LoopPayload(env.tool(h, call).content, env.tool(h, call).dumped);
              && (Summarizable(env.rt, call.name, p) ==> r == Continue(ToolResultEntry(Summarize(env.rt, call.name, p))))
              && (!Summarizable(env.rt, call.name, p) ==> r.Crash?)
  {
    match env.tool(h, call)
    case Raised(err) =>
      var e := ToolErrorEntry(call.name, err);
      assert e.content[..13] == "[Tool Error] ";
      Continue(e)
    case Returned(content, dumped) =>
      var payload := LoopPayload(content, dumped);
      if Summarizable(env.rt, call.name, payload) then
        var e := ToolResultEntry(Summarize(env.rt, call.name, payload));
        assert e.content[..14] == "[Tool Result] ";
        Continue(e)
      else
        Crash(NoAttribute(env.rt.loads(payload).value, "get"))
  }

  /** The driver of the decision loop in this client. */
  function DriverOf(env: Env): Driver {
    Driver(h => DecisionAt(env, h), (h, c) => CallReaction(env, h, c))
  }

  /** Every entry a tool call adds in this client is a tool entry. */
  lemma DriverReactsWithToolEntries(env: Env)
    ensures ReactsWith(DriverOf(env), IsToolEntry)
  {
    forall h, c | DriverOf(env).react(h, c).Continue?
      ensures IsToolEntry(DriverOf(env).react(h, c).entry)
    {
      assert DriverOf(env).react(h, c) == CallReaction(env, h, c);
    }
  }

  // ---- the trivia shortcut ----

  /** The user input ends the session (line 136). */
  predicate IsExitInput(input: string) {
    input == "" || Lower(input) == "exit" || Lower(input) == "quit"
  }

  /** The input that ends the session is the empty line and the words
      "exit" and "quit" with each letter in either case. */
  lemma ExitInputSpellings(input: string)
    ensures IsExitInput(input) <==>
              input == "" || SpelledAnyCase(input, "exit") || SpelledAnyCase(input, "quit")
  {
    LowerIsWord(input, "exit");
    LowerIsWord(input, "quit");
  }

  /** The user input takes the trivia shortcut (line 142). */
  predicate MentionsTrivia(input: string) {
    Contains(Lower(input), "trivia")
  }

  /** The call the trivia shortcut issues, whether or not the tool is listed. */
  const TriviaCall: ToolCall := ToolCall("trivia", EmptyObject)

  /** The payload the trivia shortcut reads from a returned result. */
  function TriviaPayload(content: seq<Content>): string {
    if |content| > 0 && content[0].TextContent? then content[0].text else "{}"
  }

  /** The first element Python's `set()` rejects as unhashable. */
  function FirstUnhashable(xs: seq<Json>): (r: Option<Json>)
    ensures r.None? <==> forall i | 0 <= i < |xs| :: Hashable(xs[i])
    ensures r.Some? ==>
              exists k | 0 <= k < |xs| ::
                && xs[k] == r.value
                && !Hashable(xs[k])
                && forall j | 0 <= j < k :: Hashable(xs[j])
  {
    if |xs| == 0 then None
    else if !Hashable(xs[0]) then Some(xs[0])
    else FirstUnhashable(xs[1..])
  }

  lemma {:induction false} FirstUnhashableAppend(xs: seq<Json>, x: Json)
    ensures FirstUnhashable(xs + [x]).None? <==> FirstUnhashable(xs).None? && Hashable(x)
  {
    assert forall i | 0 <= i < |xs| :: (xs + [x])[i] == xs[i];
    assert (xs + [x])[|xs|] == x;
  }

  /** The exception `list(set(choices))` raises, if any. */
  function SetError(choices: Json): Option<PyError> {
    match choices
    case JArr(xs) =>
      (match FirstUnhashable(xs)
       case Some(x) => Some(Unhashable(x))
       case None => None)
    case JStr(_) => None
    case JObj(_) => None
    case _ => Some(NotIterable(choices))
  }

  /** The exception that building the displayed choice list (lines 156-159)
      raises, if any: appending to something that is not a list, or putting
      a list or dict into a set, or making a set of a non-iterable. */
  function ChoicesError(d: map<string, Json>): (r: Option<PyError>)
    ensures
      var incorrect := GetOr(d, "incorrect_answers", JArr([]));
      var appends := "correct_answer" in d && Truthy(d["correct_answer"]);
      r.None? <==>
        if appends then
          && incorrect.JArr?
          && Hashable(d["correct_answer"])
          && forall i | 0 <= i < |incorrect.items| :: Hashable(incorrect.items[i])
        else
          || incorrect.JStr?
          || incorrect.JObj?
          || (incorrect.JArr? && forall i | 0 <= i < |incorrect.items| :: Hashable(incorrect.items[i]))
  {
    var incorrect := GetOr(d, "incorrect_answers", JArr([]));
    var correct := Get(d, "correct_answer");
    if correct.Some? && Truthy(correct.value) then
      if incorrect.JArr? then
        FirstUnhashableAppend(incorrect.items, correct.value);
        SetError(JArr(incorrect.items + [correct.value]))
      else
        Some(NoAttribute(incorrect, "append"))
    else
      SetError(incorrect)
  }

  /** The choices the trivia shortcut lists (lines 156-162), as a set: the
      listing order is the iteration order of a Python set, which is not
      modelled. */
  function TriviaChoices(d: map<string, Json>): set<Json>
    requires ChoicesError(d).None?
  {
    var incorrect := GetOr(d, "incorrect_answers", JArr([]));
    var listed :=
      match incorrect
      case JArr(xs) => set x | x in xs
      case JStr(s) => set c | c in s :: JStr([c])
      case JObj(m) => set k | k in m :: JStr(k)
      case _ => {};
    var correct := Get(d, "correct_answer");
    if correct.Some? && Truthy(correct.value) then listed + {correct.value} else listed
  }

  /** The exception the display part of the trivia shortcut raises, if any:
      decoding the payload, `.get` on a non-object, or building the choices. */
  function TriviaDisplayError(rt: Runtime, payload: string): Option<PyError> {
    match rt.loads(payload)
    case None => Some(DecodeError(payload))
    case Some(data) =>
      if data.JObj? then ChoicesError(data.fields) else Some(NoAttribute(data, "get"))
  }

  /** Lines 142-171: call the trivia tool directly and record either its
      summary or the failure; the model is never consulted. */
  function TriviaShortcut(env: Env, history: seq<Entry>): (o: Outcome)
    ensures o.calls == [TriviaCall] && o.consultations == 0
    ensures |o.history| == |history| + 1 && o.history[..|history|] == history
    ensures o.ending.ByTrivia()
    ensures o.ending == TriviaShown <==>
              && env.tool(history, TriviaCall).Returned?
              && TriviaDisplayError(env.rt, TriviaPayload(env.tool(history, TriviaCall).content)).None?
    ensures o.ending == TriviaShown ==>
              var data := env.rt.loads(TriviaPayload(env.tool(history, TriviaCall).content)).value;
              && data.JObj?
              && o.history[|history|]
                 == ToolResultEntry("Trivia question: " + Field(env.rt, data.fields, "question", DefaultQuestion))
    ensures o.ending == TriviaFailed ==>
              o.history[|history|].role == Assistant && StartsWith(o.history[|history|].content, TriviaFailure)
    ensures env.tool(history, TriviaCall).Raised? ==>
              o.history[|history|] == Entry(Assistant, TriviaFailure + env.tool(history, TriviaCall).error)
    ensures env.tool(history, TriviaCall).Returned? ==>
              var err := TriviaDisplayError(env.rt, TriviaPayload(env.tool(history, TriviaCall).content));
              err.Some? ==> o.history[|history|] == Entry(Assistant, TriviaFailure + env.rt.message(err.value))
  {
    match env.tool(history, TriviaCall)
    case Raised(e) =>
      Outcome(history + [Entry(Assistant, TriviaFailure + e)], [TriviaCall], 0, TriviaFailed)
    case Returned(content, _) =>
      var payload := TriviaPayload(content);
      match TriviaDisplayError(env.rt, payload)
      case Some(err) =>
        Outcome(history + [Entry(Assistant, TriviaFailure + env.rt.message(err))], [TriviaCall], 0, TriviaFailed)
      case None =>
        Outcome(history + [ToolResultEntry(Summarize(env.rt, "trivia", payload))], [TriviaCall], 0, TriviaShown)
  }

  // ---- one turn ----

  /** Lines 142-220 for the stripped, non-exit input `input`, once the
      user's entry has been appended to give `h`. */
  function Respond(env: Env, h: seq<Entry>, input: string): (o: Outcome)
    ensures o.consultations <= MaxSteps
    ensures |h| <= |o.history| && o.history[..|h|] == h
    ensures o.ending.ByLoop() || o.ending.ByTrivia()
    ensures !o.ending.Quit?
  {
    if MentionsTrivia(input) then TriviaShortcut(env, h)
    else DecisionLoop(DriverOf(env), h, 0)
  }

  /** One iteration of the `while True` loop for the raw input line `line`. */
  function Turn(env: Env, history: seq<Entry>, line: string): (o: Outcome)
    ensures o.consultations <= MaxSteps
    ensures |history| <= |o.history| && o.history[..|history|] == history
    ensures IsExitInput(Strip(line)) <==> o.ending.Quit?
    ensures !IsExitInput(Strip(line)) ==> o.ending.ByLoop() || o.ending.ByTrivia()
    ensures o.ending.Quit? ==> o.history == history && o.calls == [] && o.consultations == 0
    ensures !o.ending.Quit? ==>
              |o.history| > |history| && o.history[|history|] == Entry(User, Strip(line))
  {
    var input := Strip(line);
    if IsExitInput(input) then
      Outcome(history, [], 0, Quit)
    else
      var o := Respond(env, history + [Entry(User, input)], input);
      ExtensionPrefix(history, Entry(User, input), o.history);
      o
  }

  /** Input mentioning "trivia" in any case skips the decision loop: the
      model is not consulted, exactly the trivia tool is called, exactly
      one entry follows the user's, and the turn is the shortcut run on the
      history ending with the user's entry. */
  lemma TriviaTurnSkipsModel(env: Env, history: seq<Entry>, line: string)
    ensures var o := Turn(env, history, line);
            && (o.ending.ByTrivia() <==> !IsExitInput(Strip(line)) && MentionsTrivia(Strip(line)))
            && (o.ending.ByTrivia() ==>
                  o.consultations == 0 && o.calls == [TriviaCall] && |o.history| == |history| + 2)
            && (o.ending.ByTrivia() ==> o == TriviaShortcut(env, history + [Entry(User, Strip(line))]))
  {
    var input := Strip(line);
    if !IsExitInput(input) {
      var h := history + [Entry(User, input)];
      var o := Respond(env, h, input);
      assert Turn(env, history, line) == o;
      if MentionsTrivia(input) {
        assert o == TriviaShortcut(env, h);
      } else {
        assert o == DecisionLoop(DriverOf(env), h, 0);
      }
    }
  }

  // ---- the session ----

  /** Why the session stopped. */
  datatype SessionEnd = Exited | Stopped | InputExhausted

  /** The history after a session, its tool calls in order, how often it
      consulted the model, the ending of each turn it ran, and why it
      stopped. */
  datatype SessionOutcome = SessionOutcome(
    history: seq<Entry>, calls: seq<ToolCall>, consultations: nat, endings: seq<Ending>, end: SessionEnd)

  /** The ending of the last turn a session ran. */
  function LastEnding(endings: seq<Ending>): Ending
    requires |endings| > 0
  {
    endings[|endings| - 1]
  }

  /** Endings of the turns of one session: no turn quit, and only the last
      may have crashed. */
  predicate TurnEndings(endings: seq<Ending>) {
    && (forall k | 0 <= k < |endings| :: endings[k].ByLoop() || endings[k].ByTrivia())
    && (forall k | 0 <= k < |endings| - 1 :: !endings[k].Crashed?)
  }

  /** A turn that neither quit nor crashed can precede the turns of a session. */
  lemma TurnEndingsCons(e: Ending, es: seq<Ending>)
    requires (e.ByLoop() || e.ByTrivia()) && !e.Crashed?
    requires TurnEndings(es)
    ensures TurnEndings([e] + es)
    ensures |es| > 0 ==> LastEnding([e] + es) == LastEnding(es)
  {
    forall k | 0 < k < |es| + 1
      ensures ([e] + es)[k] == es[k - 1]
    {
    }
  }

  /** A turn that did not quit, followed by `n` more that did not. */
  lemma NoExitBeforeShift(lines: seq<string>, n: nat)
    requires n < |lines| && !IsExitInput(Strip(lines[0]))
    requires forall k | 0 <= k < n :: !IsExitInput(Strip(lines[1..][k]))
    ensures forall k | 0 <= k < n + 1 :: !IsExitInput(Strip(lines[k]))
  {
    forall k | 0 <= k < n + 1
      ensures !IsExitInput(Strip(lines[k]))
    {
      if k > 0 {
        assert lines[k] == lines[1..][k - 1];
        assert !IsExitInput(Strip(lines[1..][k - 1]));
      }
    }
  }

  /** What a session over `lines` from `history` guarantees: the history
      only grows; each turn it ran read a line that was not an exit input,
      consulted the model at most `MaxSteps` times and did not quit; only
      the last turn may have crashed, and the session stopped exactly then;
      otherwise it exited on the next line or ran out of lines. */
  predicate SessionRan(history: seq<Entry>, lines: seq<string>, o: SessionOutcome) {
    && |history| <= |o.history| && o.history[..|history|] == history
    && |o.endings| <= |lines|
    && o.consultations <= MaxSteps * |o.endings|
    && (|o.endings| == 0 ==> o.history == history && o.calls == [] && o.consultations == 0)
    && (forall k | 0 <= k < |o.endings| :: !IsExitInput(Strip(lines[k])))
    && TurnEndings(o.endings)
    && (o.end.Stopped? <==> |o.endings| > 0 && LastEnding(o.endings).Crashed?)
    && (o.end.Exited? ==> |o.endings| < |lines| && IsExitInput(Strip(lines[|o.endings|])))
    && (o.end.InputExhausted? ==> |o.endings| == |lines|)
  }

  /** A turn that neither quit nor crashed, followed by a session over the
      remaining lines, is a session over all the lines. */
  lemma SessionStep(history: seq<Entry>, lines: seq<string>, t: Outcome, rest: SessionOutcome)
    requires |lines| > 0 && !IsExitInput(Strip(lines[0]))
    requires |history| <= |t.history| && t.history[..|history|] == history
    requires t.consultations <= MaxSteps
    requires (t.ending.ByLoop() || t.ending.ByTrivia()) && !t.ending.Crashed?
    requires SessionRan(t.history, lines[1..], rest)
    ensures SessionRan(history, lines,
                       SessionOutcome(rest.history, t.calls + rest.calls, t.consultations + rest.consultations,
                                      [t.ending] + rest.endings, rest.end))
  {
    var n := |rest.endings|;
    PrefixTransitive(history, t.history, rest.history);
    assert MaxSteps * (n + 1) == MaxSteps * n + MaxSteps;
    assert n < |lines| - 1 ==> lines[1..][n] == lines[n + 1];
    NoExitBeforeShift(lines, n);
    TurnEndingsCons(t.ending, rest.endings);
    assert |[t.ending] + rest.endings| == n + 1;
  }

  /** `main` run over the input lines `lines`: turns until an exit input, an
      uncaught exception, or the end of the input. */
  function Session(env: Env, history: seq<Entry>, lines: seq<string>): (o: SessionOutcome)
    ensures SessionRan(history, lines, o)
    decreases |lines|
  {
    if |lines| == 0 then
      SessionOutcome(history, [], 0, [], InputExhausted)
    else
      var t := Turn(env, history, lines[0]);
      if t.ending.Quit? then
        SessionOutcome(history, [], 0, [], Exited)
      else if t.ending.Crashed? then
        SessionOutcome(t.history, t.calls, t.consultations, [t.ending], Stopped)
      else
        var rest := Session(env, t.history, lines[1..]);
        SessionStep(history, lines, t, rest);
        SessionOutcome(rest.history, t.calls + rest.calls, t.consultations + rest.consultations,
                       [t.ending] + rest.endings, rest.end)
  }

  /** The first line decides how a session starts: an exit input ends it
      at once with nothing recorded, a crashing turn stops it after that one
      turn, and any other turn is the first of the turns it runs. The rest
      of the session carries on from that turn's history, after its calls
      and its consultations. */
  lemma SessionFirstTurn(env: Env, history: seq<Entry>, lines: seq<string>)
    requires |lines| > 0
    ensures var t := Turn(env, history, lines[0]);
            var o := Session(env, history, lines);
            && (t.ending.Quit? ==> o == SessionOutcome(history, [], 0, [], Exited))
            && (t.ending.Crashed? ==> o == SessionOutcome(t.history, t.calls, t.consultations, [Crashed], Stopped))
            && (!t.ending.Quit? ==> |o.endings| > 0 && o.endings[0] == t.ending)
            && (!t.ending.Quit? ==>
                  && |t.history| <= |o.history| && o.history[..|t.history|] == t.history
                  && |t.calls| <= |o.calls| && o.calls[..|t.calls|] == t.calls
                  && o.consultations >= t.consultations)
            && (!t.ending.Quit? && !t.ending.Crashed? ==>
                  var rest := Session(env, t.history, lines[1..]);
                  o == SessionOutcome(rest.history, t.calls + rest.calls, t.consultations + rest.consultations,
                                      [t.ending] + rest.endings, rest.end))
  {
    var t := Turn(env, history, lines[0]);
    if !t.ending.Quit? && !t.ending.Crashed? {
      var rest := Session(env, t.history, lines[1..]);
      assert (t.calls + rest.calls)[..|t.calls|] == t.calls;
    }
  }

  // ---- properties of one turn ----

  /** A model reply that is not JSON is taken as the final answer, verbatim
      once stripped (lines 55-63 and 180-184). */
  lemma NonJsonReplyIsTheAnswer(env: Env, h: seq<Entry>)
    requires env.llm(h).Reply? && env.rt.loads(Strip(env.llm(h).content)).None?
    ensures DecisionAt(env, h) == Answer(Strip(env.llm(h).content))
  {
    var txt := Strip(env.llm(h).content);
    assert LlmJson(env.rt, env.llm(h)) == FinalDecision(txt);
    FinalDecisionAnswers(env.rt, env.tools, txt);
    StripIdempotent(env.llm(h).content);
  }

  /** A reply that is a JSON object asking for a listed tool is obeyed: the
      tool named by the stripped action is called with the reply's "args",
      or with `{}` when it has none (lines 56-57 and 187-199). */
  lemma JsonToolRequestIsCalled(env: Env, h: seq<Entry>, d: map<string, Json>)
    requires env.llm(h).Reply? && env.rt.loads(Strip(env.llm(h).content)) == Some(JObj(d))
    requires Get(d, "action") != Some(JStr("final"))
    requires var n := Strip(Format(env.rt, GetOr(d, "action", JStr("")))); n != "" && n in env.tools
    ensures DecisionAt(env, h)
            == Invoke(ToolCall(Strip(Format(env.rt, GetOr(d, "action", JStr("")))), GetOr(d, "args", EmptyObject)))
  {
    assert LlmJson(env.rt, env.llm(h)) == JObj(d);
    ClassifyCases(env.rt, env.tools, d);
  }

  /** Stripping the apology keeps its opening words, whatever the error. */
  lemma ApologyKeepsItsOpening(error: string)
    ensures StartsWith(Strip(BrainTrouble + error), "Sorry, I had trouble reaching my brain:")
  {
    var s := BrainTrouble + error;
    var k := |BrainTrouble| - 2;
    assert s[..k + 1] == BrainTrouble[..k + 1];
    assert s[0] == 'S' && s[k] == ':';
    StripKeepsPrefix(s, k);
  }

  /** When the model cannot be reached the turn's answer is the apology
      (lines 50-51): it starts with "Sorry, I had trouble reaching my brain:". */
  lemma UnreachableModelApologises(env: Env, h: seq<Entry>)
    requires env.llm(h).Unreachable?
    ensures DecisionAt(env, h).Answer?
    ensures StartsWith(DecisionAt(env, h).text, "Sorry, I had trouble reaching my brain:")
  {
    var s := BrainTrouble + env.llm(h).error;
    assert LlmJson(env.rt, env.llm(h)) == FinalDecision(s);
    FinalDecisionAnswers(env.rt, env.tools, s);
    ApologyKeepsItsOpening(env.llm(h).error);
  }

  /** A decision naming a tool the host did not list ends the turn with the
      unknown-tool message and no call (lines 192-195). */
  lemma UnlistedToolIsReported(env: Env, h: seq<Entry>, step: nat, d: map<string, Json>)
    requires step < MaxSteps
    requires LlmJson(env.rt, env.llm(h)) == JObj(d)
    requires Get(d, "action") != Some(JStr("final"))
    requires Strip(Format(env.rt, GetOr(d, "action", JStr("")))) !in env.tools
    ensures var name := Strip(Format(env.rt, GetOr(d, "action", JStr(""))));
            DecisionLoop(DriverOf(env), h, step)
            == Outcome(h + [Entry(Assistant, "Unknown tool: " + name)], [], 1, UnknownTool)
  {
    ClassifyCases(env.rt, env.tools, d);
    assert DriverOf(env).decide(h) == DecisionAt(env, h);
    UnknownToolEndsLoop(DriverOf(env), h, step);
  }

  /** A listed tool that raises costs one step and leaves its error in the
      history for the model to see (lines 198-204); the loop goes on. */
  lemma ToolFailureIsRecorded(env: Env, h: seq<Entry>, step: nat)
    requires step < MaxSteps
    requires DecisionAt(env, h).Invoke?
    requires env.tool(h, DecisionAt(env, h).call).Raised?
    ensures var call := DecisionAt(env, h).call;
            var entry := ToolErrorEntry(call.name, env.tool(h, call).error);
            var rest := DecisionLoop(DriverOf(env), h + [entry], step + 1);
            DecisionLoop(DriverOf(env), h, step)
            == Outcome(rest.history, [call] + rest.calls, rest.consultations + 1, rest.ending)
  {
    var d := DriverOf(env);
    assert d.decide(h) == DecisionAt(env, h);
    assert d.react(h, d.decide(h).call) == CallReaction(env, h, d.decide(h).call);
    ToolCallContinuesLoop(d, h, step);
  }

  /** A listed tool that returns costs one step. Its summary is appended
      and the loop goes on (lines 206-214). A payload the summariser cannot
      read stops the program with that one call made. */
  lemma ToolResultIsSummarised(env: Env, h: seq<Entry>, step: nat)
    requires step < MaxSteps
    requires DecisionAt(env, h).Invoke?
    requires env.tool(h, DecisionAt(env, h).call).Returned?
    ensures var call := DecisionAt(env, h).call;
            var payload := LoopPayload(env.tool(h, call).content, env.tool(h, call).dumped);
            && (Summarizable(env.rt, call.name, payload) ==>
                  var rest := DecisionLoop(DriverOf(env), h + [ToolResultEntry(Summarize(env.rt, call.name, payload))], step + 1);
                  DecisionLoop(DriverOf(env), h, step)
                  == Outcome(rest.history, [call] + rest.calls, rest.consultations + 1, rest.ending))
            && (!Summarizable(env.rt, call.name, payload) ==>
                  DecisionLoop(DriverOf(env), h, step) == Outcome(h, [call], 1, Crashed))
  {
    var d := DriverOf(env);
    assert d.decide(h) == DecisionAt(env, h);
    assert d.react(h, d.decide(h).call) == CallReaction(env, h, d.decide(h).call);
    if d.react(h, d.decide(h).call).Continue? {
      ToolCallContinuesLoop(d, h, step);
    }
  }

  /** Input that neither exits nor mentions trivia goes to the decision loop
      from the history extended by the user's entry. */
  lemma LoopTurn(env: Env, history: seq<Entry>, line: string)
    requires !IsExitInput(Strip(line)) && !MentionsTrivia(Strip(line))
    ensures Turn(env, history, line) == DecisionLoop(DriverOf(env), history + [Entry(User, Strip(line))], 0)
  {
    var h := history + [Entry(User, Strip(line))];
    assert Turn(env, history, line) == Respond(env, h, Strip(line));
  }

  /** Outside the trivia shortcut, only tools the host listed are called. */
  lemma TurnCallsOnlyListedTools(env: Env, history: seq<Entry>, line: string)
    ensures forall c | c in Turn(env, history, line).calls :: c.name in env.tools || c == TriviaCall
  {
    var input := Strip(line);
    if !IsExitInput(input) && !MentionsTrivia(input) {
      var d := DriverOf(env);
      forall h | d.decide(h).Invoke?
        ensures d.decide(h).call.name in env.tools
      {
        assert d.decide(h) == DecisionAt(env, h);
      }
      LoopTurn(env, history, line);
      LoopCallsOnlyDecidedTools(d, env.tools, history + [Entry(User, input)], 0);
    } else if !IsExitInput(input) {
      TriviaTurnSkipsModel(env, history, line);
    }
  }

  /** A turn through the decision loop that does not crash ends with an
      assistant reply after the user's entry. */
  lemma TurnEndsWithReply(env: Env, history: seq<Entry>, line: string)
    requires !IsExitInput(Strip(line)) && !MentionsTrivia(Strip(line))
    ensures var o := Turn(env, history, line);
            !o.ending.Crashed? ==>
              |o.history| >= |history| + 2 && LastEntry(o.history).role == Assistant
  {
    var h := history + [Entry(User, Strip(line))];
    var o := DecisionLoop(DriverOf(env), h, 0);
    LoopTurn(env, history, line);
    LoopEndsWithReply(DriverOf(env), h, 0);
    assert Turn(env, history, line) == o;
    if !o.ending.Crashed? {
      assert o.ending != Crashed;
      assert |o.history| > |h| == |history| + 1;
      assert LastEntry(o.history).role == Assistant;
    }
  }

  /** Between the user's entry and the reply, a turn through the decision
      loop adds only tool entries. */
  lemma TurnAddsOnlyToolEntries(env: Env, history: seq<Entry>, line: string)
    requires !IsExitInput(Strip(line)) && !MentionsTrivia(Strip(line))
    ensures var o := Turn(env, history, line);
            !o.ending.Crashed? ==> forall i | |history| < i < |o.history| - 1 :: IsToolEntry(o.history[i])
  {
    var h := history + [Entry(User, Strip(line))];
    var o := DecisionLoop(DriverOf(env), h, 0);
    LoopTurn(env, history, line);
    DriverReactsWithToolEntries(env);
    LoopAppendsToolEntries(DriverOf(env), IsToolEntry, h, 0);
    if !o.ending.Crashed? {
      forall i | |history| < i < |o.history| - 1
        ensures IsToolEntry(o.history[i])
      {
        assert |h| <= i;
      }
    }
  }

  /** A model that keeps choosing listed tools, with tools that keep
      failing, exhausts the turn: eight consultations, eight calls, and the
      request to rephrase (lines 216-220). */
  lemma PersistentToolUseGivesUp(env: Env, history: seq<Entry>, line: string)
    requires !IsExitInput(Strip(line)) && !MentionsTrivia(Strip(line))
    requires forall h :: DecisionAt(env, h).Invoke?
    requires forall h, c :: env.tool(h, c).Raised?
    ensures var o := Turn(env, history, line);
            && o.ending == GaveUp
            && o.consultations == MaxSteps && |o.calls| == MaxSteps
            && LastEntry(o.history) == Entry(Assistant, GiveUpMessage)
  {
    var d := DriverOf(env);
    var h := history + [Entry(User, Strip(line))];
    forall h' ensures d.decide(h').Invoke? {
      assert d.decide(h') == DecisionAt(env, h');
    }
    forall h': seq<Entry>, c: ToolCall ensures d.react(h', c).Continue? {
      assert d.react(h', c) == CallReaction(env, h', c);
    }
    LoopTurn(env, history, line);
    EndlessToolCallsGiveUp(d, h, 0);
    GiveUpUsesAllSteps(d, h, 0);
  }

  /** The first entry of the history stays first throughout the session. */
  lemma SessionKeepsFirstEntry(env: Env, history: seq<Entry>, lines: seq<string>)
    requires |history| >= 1
    ensures var o := Session(env, history, lines);
            |o.history| >= 1 && o.history[0] == history[0]
  {
    var o := Session(env, history, lines);
    assert o.history[0] == o.history[..|history|][0];
  }
}

=== FILE: interplay.dfy ===
/** How the client's reading of tool results meets what the tool host
    actually returns. The host serves its tools under their function names
    and returns dicts; the client receives each dict as JSON text. */
module Interplay {
  import opened Wrappers
  import opened Json
  import opened PyRuntime
  import opened Text
  import opened Agent
  import opened TurnLoop
  import opened Conversation
  import opened Server

  /** The summariser's templates are keyed by "weather", "book", "joke" and
      "dog", none of which is a served name: every served tool but trivia
      is summarised by the generic line. */
  lemma ServedToolsGetGenericSummary(rt: Runtime, name: string, payload: string)
    requires name in ServedNames && name != "trivia"
    requires rt.loads(payload).Some?
    ensures Summarizable(rt, name, payload)
    ensures Summarize(rt, name, payload) == "Tool '" + name + "' returned: " + rt.dumps(rt.loads(payload).value)
  {
    assert name !in TemplateNames;
  }

  /** In particular a dog picture is never summarised by the dog template. */
  lemma DogPictureGetsGenericSummary(rt: Runtime, data: Json, payload: string)
    requires RandomDog(data).Ok? && rt.loads(payload) == Some(RandomDog(data).value)
    ensures Summarize(rt, "random_dog", payload) != DogSummary
  {
    ServedToolsGetGenericSummary(rt, "random_dog", payload);
    assert Summarize(rt, "random_dog", payload)[0] == 'T';
    assert DogSummary[0] == 'I';
  }

  /** The object a trivia result decodes to: either the no-trivia answer or
      a question with its choices and answer. */
  lemma TriviaResultKeys(rt: Runtime, data: Json)
    requires Trivia(rt, data).Ok?
    ensures Trivia(rt, data).value.JObj?
    ensures var keys := Trivia(rt, data).value.fields.Keys;
            keys == {"ok", "error"} || keys == {"ok", "question", "choices", "answer"}
  {
    if Trivia(rt, data) != Ok(NoTrivia) {
      TriviaChoicesEndWithAnswer(rt, data);
    }
  }

  /** The trivia shortcut looks for "incorrect_answers" and "correct_answer",
      but the trivia tool returns "choices" and "answer": the shortcut shows a
      served question with no choices at all, and raises nothing. */
  lemma ServedTriviaListsNoChoices(rt: Runtime, data: Json, payload: string)
    requires Trivia(rt, data).Ok? && rt.loads(payload) == Some(Trivia(rt, data).value)
    ensures TriviaDisplayError(rt, payload).None?
    ensures TriviaChoices(Trivia(rt, data).value.fields) == {}
  {
    TriviaResultKeys(rt, data);
    var fields := Trivia(rt, data).value.fields;
    assert "incorrect_answers" !in fields && "correct_answer" !in fields;
    assert GetOr(fields, "incorrect_answers", JArr([])) == JArr([]);
  }

  /** A trivia question served by the host is recorded in the history as
      the tool result "Trivia question: " followed by the unescaped question,
      or the stock question when the database had none. */
  lemma ServedTriviaIsShown(env: Env, h: seq<Entry>, data: Json, payload: string, dumped: string)
    requires env.tool(h, TriviaCall) == Returned([TextContent(payload)], dumped)
    requires Trivia(env.rt, data).Ok? && env.rt.loads(payload) == Some(Trivia(env.rt, data).value)
    ensures var o := TriviaShortcut(env, h);
            && o.ending == TriviaShown
            && (Trivia(env.rt, data) == Ok(NoTrivia) ==>
                  o.history[|h|] == ToolResultEntry("Trivia question: " + DefaultQuestion))
            && (Trivia(env.rt, data) != Ok(NoTrivia) ==>
                  o.history[|h|] == ToolResultEntry("Trivia question: " + Format(env.rt, Trivia(env.rt, data).value.fields["question"])))
  {
    ServedTriviaListsNoChoices(env.rt, data, payload);
    TriviaResultKeys(env.rt, data);
    assert TriviaPayload([TextContent(payload)]) == payload;
  }
}

=== FILE: json.dfy ===
/** Decoded JSON values as Python's `json` module hands them to the program:
    objects become dicts, arrays become lists. */
module Json {
  import opened Wrappers

  /** A JSON value. Numbers are exact reals (floating point is not modelled);
      object member order is not kept, since nothing here depends on it
      except serialisation, which is opaque (see PyRuntime). */
  datatype Json =
    | JNull
    | JBool(b: bool)
    | JNum(n: real)
    | JStr(s: string)
    | JArr(items: seq<Json>)
    | JObj(fields: map<string, Json>)

  /** The empty object `{}`. */
  const EmptyObject: Json := JObj(map[])

  /** `d.get(key)`: the value stored under `key`, if any. */
  function Get(d: map<string, Json>, key: string): Option<Json> {
    if key in d then Some(d[key]) else None
  }

  /** `d.get(key, default)`. */
  function GetOr(d: map<string, Json>, key: string, default: Json): Json {
    Get(d, key).GetOr(default)
  }

  /** Python truthiness of a decoded value (`if x:` / `x or y`). */
  predicate Truthy(j: Json) {
    match j
    case JNull => false
    case JBool(b) => b
    case JNum(n) => n != 0.0
    case JStr(s) => |s| > 0
    case JArr(xs) => |xs| > 0
    case JObj(m) => |m| > 0
  }

  /** Values Python can put in a `set` (lists and dicts are unhashable). */
  predicate Hashable(j: Json) {
    !j.JArr? && !j.JObj?
  }
}

/** The parts of the Python runtime the program calls but whose internals are
    not modelled: they are parameters of the model, so every property proved
    holds for any behaviour of them. */
module PyRuntime {
  import opened Wrappers
  import opened Json

  /** Exceptions the programs raise; their message text is opaque. */
  datatype PyError =
    | DecodeError(document: string)             // json.JSONDecodeError
    | NoAttribute(receiver: Json, attr: string) // AttributeError
    | NotIterable(value: Json)                  // TypeError: iterating, or `in`, on a scalar
    | Unhashable(value: Json)                   // TypeError from set(x)
    | NotSubscriptable(value: Json)             // TypeError: `x[i]` on a scalar
    | NonIntegerIndex(value: Json)              // TypeError: a list or str indexed by a str
    | KeyMissing(key: Json)                     // KeyError
    | IndexOutOfRange(value: Json)              // IndexError
    | ExpectedString(value: Json)               // TypeError from a regex on a non-string

  /** `loads` is `json.loads` (None for a JSONDecodeError), `dumps` is
      `json.dumps`, `str` is Python's `str()` applied to a non-string value,
      `unescape` is `html.unescape` on a string, `message` is `str(e)` for a
      caught exception, and `keys` lists a dict's keys in insertion order
      (which `Json` does not keep). */
  datatype Runtime = Runtime(
    loads: string -> Option<Json>,
    dumps: Json -> string,
    str: Json -> string,
    unescape: string -> string,
    message: PyError -> string,
    keys: map<string, Json> -> seq<string>)

  /** `str(v)`, which is also what an f-string substitutes for `{v}`: a string
      is itself, anything else goes through the opaque `str`. */
  function Format(rt: Runtime, v: Json): string {
    if v.JStr? then v.s else rt.str(v)
  }
}

=== FILE: server.dfy ===
/** The tool host (server_fun.py): five tools, each of which fetches one JSON
    document over HTTP and reshapes it into the dict the tool returns. The
    fetch is not modelled; each tool is a function of the decoded response
    `data`. A Python exception the reshaping raises is an `Err`. */
module Server {
  import opened Wrappers
  import opened Json
  import opened PyRuntime

  /** What a tool hands back to the client: the dict it returns, or the
      exception it raises. */
  type ToolResult = Result<Json, PyError>

  /** The names under which the tools are served (the function names). */
  const ServedNames: set<string> := {"get_weather", "book_recs", "random_joke", "random_dog", "trivia"}

  // ---- Python operations on decoded JSON ----

  /** `for x in v`: the elements of a list, the one-character strings of a
      string, the keys of a dict; anything else is not iterable. */
  function Items(rt: Runtime, v: Json): (r: Result<seq<Json>, PyError>)
    ensures r.Err? <==> v.JNull? || v.JBool? || v.JNum?
    ensures v.JArr? ==> r == Ok(v.items)
  {
    match v
    case JArr(xs) => Ok(xs)
    case JStr(s) => Ok(seq(|s|, i requires 0 <= i < |s| => JStr([s[i]])))
    case JObj(m) =>
      var ks := rt.keys(m);
      Ok(seq(|ks|, i requires 0 <= i < |ks| => JStr(ks[i])))
    case _ => Err(NotIterable(v))
  }

  /** `v[0]`. */
  function First(v: Json): Result<Json, PyError> {
    match v
    case JArr(xs) => if |xs| > 0 then Ok(xs[0]) else Err(IndexOutOfRange(v))
    case JStr(s) => if |s| > 0 then Ok(JStr(s[..1])) else Err(IndexOutOfRange(v))
    case JObj(_) => Err(KeyMissing(JNum(0.0)))
    case _ => Err(NotSubscriptable(v))
  }

  /** `v[key]` for a string `key`. */
  function Lookup(v: Json, key: string): Result<Json, PyError> {
    match v
    case JObj(m) => if key in m then Ok(m[key]) else Err(KeyMissing(JStr(key)))
    case JArr(_) => Err(NonIntegerIndex(v))
    case JStr(_) => Err(NonIntegerIndex(v))
    case _ => Err(NotSubscriptable(v))
  }

  /** `html.unescape(v)`. A string is unescaped; any other value is first
      asked whether it contains "&": a list or dict that does not is returned
      as it is, one that does reaches the regex and raises, and a scalar
      cannot be searched. */
  function Unescape(rt: Runtime, v: Json): (r: Result<Json, PyError>)
    ensures v.JStr? ==> r == Ok(JStr(rt.unescape(v.s)))
    ensures r.Ok? && !v.JStr? ==> r.value == v
  {
    match v
    case JStr(s) => Ok(JStr(rt.unescape(s)))
    case JArr(xs) => if JStr("&") in xs then Err(ExpectedString(v)) else Ok(v)
    case JObj(m) => if "&" in m then Err(ExpectedString(v)) else Ok(v)
    case _ => Err(NotIterable(v))
  }

  /** `[html.unescape(x) for x in xs]`: the first exception, or every element
      unescaped in order. */
  function UnescapeAll(rt: Runtime, xs: seq<Json>): (r: Result<seq<Json>, PyError>)
    ensures r.Ok? <==> forall i | 0 <= i < |xs| :: Unescape(rt, xs[i]).Ok?
    ensures r.Ok? ==> |r.value| == |xs| && forall i | 0 <= i < |xs| :: Unescape(rt, xs[i]) == Ok(r.value[i])
    ensures r.Err? ==> exists i | 0 <= i < |xs| :: Unescape(rt, xs[i]) == Err(r.error)
  {
    if |xs| == 0 then Ok([])
    else
      var head :- Unescape(rt, xs[0]);
      var tail :- UnescapeAll(rt, xs[1..]);
      assert forall i | 1 <= i < |xs| :: xs[i] == xs[1..][i - 1];
      Ok([head] + tail)
  }

  // ---- get_weather ----

  /** Lines 28-29: the `current` block of the forecast, or `{}`. */
  function GetWeather(data: Json): (r: ToolResult)
    ensures r.Ok? <==> data.JObj?
    ensures r.Ok? ==> r.value.JObj? && r.value.fields.Keys == {"ok", "data"} && r.value.fields["ok"] == JBool(true)
    ensures r.Ok? && "current" in data.fields ==> r.value.fields["data"] == data.fields["current"]
    ensures r.Ok? && "current" !in data.fields ==> r.value.fields["data"] == EmptyObject
  {
    if !data.JObj? then Err(NoAttribute(data, "get"))
    else Ok(JObj(map["ok" := JBool(true), "data" := GetOr(data.fields, "current", EmptyObject)]))
  }

  // ---- book_recs ----

  /** Lines 45-50: the pick for one search document. */
  function BookPick(d: Json): ToolResult {
    if !d.JObj? then Err(NoAttribute(d, "get"))
    else
      var names := GetOr(d.fields, "author_name", JNull);
      var author :- if Truthy(names) then First(names) else Ok(JStr("Unknown"));
      Ok(JObj(map[
        "title" := GetOr(d.fields, "title", JNull),
        "author" := author,
        "year" := GetOr(d.fields, "first_publish_year", JNull),
        "work" := GetOr(d.fields, "key", JNull)]))
  }

  /** A document without a truthy `author_name` is credited to "Unknown"; one
      with a non-empty author list is credited to its first author; the other
      three fields are the document's own or null. */
  lemma BookPickFields(d: map<string, Json>)
    ensures var p := BookPick(JObj(d));
            var names := GetOr(d, "author_name", JNull);
            && (!Truthy(names) ==> p.Ok? && p.value.fields["author"] == JStr("Unknown"))
            && (names.JArr? && |names.items| > 0 ==> p.Ok? && p.value.fields["author"] == names.items[0])
            && (p.Ok? ==>
                  && p.value.fields.Keys == {"title", "author", "year", "work"}
                  && ("title" in d ==> p.value.fields["title"] == d["title"])
                  && ("title" !in d ==> p.value.fields["title"] == JNull)
                  && p.value.fields["year"] == Get(d, "first_publish_year").GetOr(JNull)
                  && p.value.fields["work"] == Get(d, "key").GetOr(JNull))
  {
  }

  /** The documents the search response lists (line 44). */
  function Docs(rt: Runtime, data: map<string, Json>): Result<seq<Json>, PyError> {
    Items(rt, GetOr(data, "docs", JArr([])))
  }

  /** One pick per document, in order. */
  function Picks(docs: seq<Json>): seq<Json>
    requires forall i | 0 <= i < |docs| :: BookPick(docs[i]).Ok?
  {
    seq(|docs|, i requires 0 <= i < |docs| => BookPick(docs[i]).value)
  }

  function BookResult(topic: string, picks: seq<Json>): Json {
    JObj(map["ok" := JBool(true), "topic" := JStr(topic), "results" := JArr(picks)])
  }

  /** Lines 43-52: the search response reshaped into picks. It fails exactly
      when the response is not an object, its `docs` is not iterable, or
      some document yields no pick; then it raises the first document's
      exception. */
  method BookRecs(rt: Runtime, topic: string, data: Json) returns (r: ToolResult)
    ensures r.Ok? <==>
              && data.JObj?
              && Docs(rt, data.fields).Ok?
              && forall i | 0 <= i < |Docs(rt, data.fields).value| :: BookPick(Docs(rt, data.fields).value[i]).Ok?
    ensures r.Ok? ==> r.value == BookResult(topic, Picks(Docs(rt, data.fields).value))
    ensures !data.JObj? ==> r == Err(NoAttribute(data, "get"))
    ensures data.JObj? && Docs(rt, data.fields).Err? ==> r == Err(Docs(rt, data.fields).error)
    ensures r.Err? && data.JObj? && Docs(rt, data.fields).Ok? ==>
              var docs := Docs(rt, data.fields).value;
              exists k | 0 <= k < |docs| ::
                && BookPick(docs[k]) == Err(r.error)
                && forall j | 0 <= j < k :: BookPick(docs[j]).Ok?
  {
    if !data.JObj? {
      return Err(NoAttribute(data, "get"));
    }
    var docs :- Docs(rt, data.fields);
    var picks: seq<Json> := [];
    var i := 0;
    while i < |docs|
      invariant 0 <= i <= |docs|
      invariant |picks| == i
      invariant forall j | 0 <= j < i :: BookPick(docs[j]).Ok? && picks[j] == BookPick(docs[j]).value
    {
      var pick := BookPick(docs[i]);
      if pick.Err? {
        return Err(pick.error);
      }
      picks := picks + [pick.value];
      i := i + 1;
    }
    assert picks == Picks(docs);
    return Ok(BookResult(topic, picks));
  }

  // ---- random_joke and random_dog ----

  const NoJoke: string := "No joke found"

  /** Line 65: the joke text, or a stock line when the response has none. */
  function RandomJoke(data: Json): (r: ToolResult)
    ensures r.Ok? <==> data.JObj?
    ensures r.Ok? ==> r.value.JObj? && r.value.fields.Keys == {"ok", "joke"}
    ensures r.Ok? ==> r.value.fields["joke"] == if "joke" in data.fields then data.fields["joke"] else JStr(NoJoke)
  {
    if !data.JObj? then Err(NoAttribute(data, "get"))
    else Ok(JObj(map["ok" := JBool(true), "joke" := GetOr(data.fields, "joke", JStr(NoJoke))]))
  }

  /** Line 75: the image address, or null when the response has none. */
  function RandomDog(data: Json): (r: ToolResult)
    ensures r.Ok? <==> data.JObj?
    ensures r.Ok? ==> r.value.JObj? && r.value.fields.Keys == {"ok", "image"}
    ensures r.Ok? ==> r.value.fields["image"] == if "message" in data.fields then data.fields["message"] else JNull
  {
    if !data.JObj? then Err(NoAttribute(data, "get"))
    else Ok(JObj(map["ok" := JBool(true), "image" := GetOr(data.fields, "message", JNull)]))
  }

  // ---- trivia ----

  /** Line 90: the answer when the database sent no question. */
  const NoTrivia: Json := JObj(map["ok" := JBool(false), "error" := JStr("no trivia")])

  /** The question list of the database response (line 88). */
  function TriviaResults(data: map<string, Json>): Json {
    GetOr(data, "results", JArr([]))
  }

  /** Lines 87-100: the first question with its text, its choices (the
      incorrect answers, then the correct one) and its answer unescaped. */
  function Trivia(rt: Runtime, data: Json): (r: ToolResult)
    ensures r == Ok(NoTrivia) <==> data.JObj? && !Truthy(TriviaResults(data.fields))
  {
    if !data.JObj? then Err(NoAttribute(data, "get"))
    else
      var results := TriviaResults(data.fields);
      if !Truthy(results) then Ok(NoTrivia)
      else
        var q :- First(results);
        var rawQuestion :- Lookup(q, "question");
        var question :- Unescape(rt, rawQuestion);
        var rawIncorrect :- Lookup(q, "incorrect_answers");
        var incorrect :- Items(rt, rawIncorrect);
        var choices :- UnescapeAll(rt, incorrect);
        var rawCorrect :- Lookup(q, "correct_answer");
        var correct :- Unescape(rt, rawCorrect);
        var out := map["ok" := JBool(true), "question" := question,
                       "choices" := JArr(choices + [correct]), "answer" := correct];
        assert "question" in out && "question" !in NoTrivia.fields;
        Ok(JObj(out))
  }

  /** A returned question lists every incorrect answer, unescaped and in
      order, and then the answer, which is the unescaped correct answer. */
  lemma TriviaChoicesEndWithAnswer(rt: Runtime, data: Json)
    requires Trivia(rt, data).Ok? && Trivia(rt, data) != Ok(NoTrivia)
    ensures var out := Trivia(rt, data).value;
            var q := First(TriviaResults(data.fields)).value;
            && out.JObj?
            && out.fields.Keys == {"ok", "question", "choices", "answer"}
            && out.fields["ok"] == JBool(true)
            && out.fields["question"] == Unescape(rt, q.fields["question"]).value
            && out.fields["answer"] == Unescape(rt, q.fields["correct_answer"]).value
            && var incorrect := Items(rt, q.fields["incorrect_answers"]).value;
            && var choices := out.fields["choices"].items;
            && |choices| == |incorrect| + 1
            && choices[|incorrect|] == out.fields["answer"]
            && forall i | 0 <= i < |incorrect| :: Unescape(rt, incorrect[i]) == Ok(choices[i])
  {
    var results := TriviaResults(data.fields);
    var q := First(results).value;
    var incorrect := Items(rt, q.fields["incorrect_answers"]).value;
    var choices := UnescapeAll(rt, incorrect).value;
    var correct := Unescape(rt, q.fields["correct_answer"]).value;
    assert Trivia(rt, data).value.fields["choices"] == JArr(choices + [correct]);
  }

  /** A response in the database's documented shape (a first question whose
      texts are strings and whose incorrect answers are a list of strings)
      always yields a question. */
  lemma TriviaAcceptsWellFormedResponse(rt: Runtime, data: map<string, Json>, q: map<string, Json>, more: seq<Json>)
    requires TriviaResults(data) == JArr([JObj(q)] + more)
    requires "question" in q && q["question"].JStr?
    requires "correct_answer" in q && q["correct_answer"].JStr?
    requires "incorrect_answers" in q && q["incorrect_answers"].JArr?
    requires forall i | 0 <= i < |q["incorrect_answers"].items| :: q["incorrect_answers"].items[i].JStr?
    ensures Trivia(rt, JObj(data)).Ok? && Trivia(rt, JObj(data)) != Ok(NoTrivia)
  {
    var xs := q["incorrect_answers"].items;
    assert forall i | 0 <= i < |xs| :: Unescape(rt, xs[i]).Ok?;
  }
}

=== FILE: text.dfy ===
/** The string operations the agent applies to user input and model output:
    Python's `str.strip()`, `str.lower()` and the `in` substring test. */
module Text {

  /** Python's `str.isspace()` for one character: the ASCII whitespace
      (tab to carriage return), the separator controls U+001C to U+001F,
      space, and the Unicode space and line separators. */
  predicate IsSpace(c: char) {
    || ('\t' <= c <= '\r')
    || ('\U{1C}' <= c <= ' ')
    || c == '\U{85}' || c == '\U{A0}' || c == '\U{1680}'
    || ('\U{2000}' <= c <= '\U{200A}')
    || c == '\U{2028}' || c == '\U{2029}' || c == '\U{202F}' || c == '\U{205F}' || c == '\U{3000}'
  }

  /** Neither the first nor the last character is whitespace. */
  predicate NoEdgeSpace(s: string) {
    s == [] || (!IsSpace(s[0]) && !IsSpace(s[|s| - 1]))
  }

  /** The first position at or after `i` that does not hold whitespace
      (`|s|` if there is none). */
  function SkipSpace(s: string, i: nat): (j: nat)
    requires i <= |s|
    ensures i <= j <= |s|
    ensures forall k | i <= k < j :: IsSpace(s[k])
    ensures j == |s| || !IsSpace(s[j])
    decreases |s| - i
  {
    if i < |s| && IsSpace(s[i]) then SkipSpace(s, i + 1) else i
  }

  /** The position just after the last character before `j`, and at or
      after `lo`, that does not hold whitespace (`lo` if there is none). */
  function SkipSpaceBack(s: string, lo: nat, j: nat): (k: nat)
    requires lo <= j <= |s|
    ensures lo <= k <= j
    ensures forall m | k <= m < j :: IsSpace(s[m])
    ensures k == lo || !IsSpace(s[k - 1])
    decreases j
  {
    if lo < j && IsSpace(s[j - 1]) then SkipSpaceBack(s, lo, j - 1) else j
  }

  /** `s.strip()`: the slice left once leading and trailing whitespace are
      dropped. */
  function Strip(s: string): (r: string)
    ensures NoEdgeSpace(r)
  {
    var i := SkipSpace(s, 0);
    var j := SkipSpaceBack(s, i, |s|);
    assert j > i ==> !IsSpace(s[i]);
    s[i..j]
  }

  /** `r` is the slice `s[i..j]`, has no whitespace at either edge, and
      everything of `s` outside the slice is whitespace. */
  ghost predicate StripsTo(s: string, r: string, i: int, j: int) {
    && 0 <= i <= j <= |s|
    && r == s[i..j]
    && (forall k | 0 <= k < i :: IsSpace(s[k]))
    && (forall k | j <= k < |s| :: IsSpace(s[k]))
    && NoEdgeSpace(r)
  }

  /** Reference definition of stripping, independent of how it is computed. */
  ghost predicate IsStripOf(s: string, r: string) {
    exists i, j :: StripsTo(s, r, i, j)
  }

  /** Strip meets the reference definition. */
  lemma StripIsStripOf(s: string)
    ensures IsStripOf(s, Strip(s))
  {
    var i := SkipSpace(s, 0);
    var j := SkipSpaceBack(s, i, |s|);
    assert StripsTo(s, Strip(s), i, j);
  }

  /** The reference definition has only one solution, so any slice meeting
      it is what Strip computes. */
  lemma StripOfUnique(s: string, r: string)
    requires IsStripOf(s, r)
    ensures r == Strip(s)
  {
    var i, j :| StripsTo(s, r, i, j);
    var i' := SkipSpace(s, 0);
    if i < j {
      // s[i] = r[0] is the first character that is not whitespace, and
      // s[j - 1] the last
      assert s[i] == r[0] && s[j - 1] == r[|r| - 1];
      assert i' == i;
      assert SkipSpaceBack(s, i, |s|) == j;
    } else {
      // s is all whitespace, so the scan from the front reaches its end
      assert i' == |s|;
      assert r == s[|s|..|s|];
    }
  }

  /** Stripping twice is stripping once. */
  lemma StripIdempotent(s: string)
    ensures Strip(Strip(s)) == Strip(s)
  {
    var r := Strip(s);
    assert r == r[0..|r|];
    assert StripsTo(r, r, 0, |r|);
    StripOfUnique(r, r);
  }

  /** A string that starts with a non-space character keeps, after
      stripping, its prefix up to any later non-space character. */
  lemma StripKeepsPrefix(s: string, k: nat)
    requires k < |s| && !IsSpace(s[0]) && !IsSpace(s[k])
    ensures |Strip(s)| > k && Strip(s)[..k + 1] == s[..k + 1]
  {
    assert SkipSpace(s, 0) == 0;
    var j := SkipSpaceBack(s, 0, |s|);
    assert j > k;
  }

  /** Python's `str.lower()` on the characters that matter here: ASCII
      letters are lowered and every other character is kept. */
  function LowerChar(c: char): char {
    if 'A' <= c <= 'Z' then (c as int - 'A' as int + 'a' as int) as char else c
  }

  function Lower(s: string): string {
    seq(|s|, i requires 0 <= i < |s| => LowerChar(s[i]))
  }

  /** The upper-case partner of an ASCII lower-case letter. */
  function UpperChar(c: char): char {
    if 'a' <= c <= 'z' then (c as int - 'a' as int + 'A' as int) as char else c
  }

  /** `s` is the word `w` with each letter in either case. */
  predicate SpelledAnyCase(s: string, w: string) {
    |s| == |w| && forall i | 0 <= i < |s| :: s[i] == w[i] || s[i] == UpperChar(w[i])
  }

  /** A string lowers to a lower-case word exactly when it spells that word
      with each letter in either case. */
  lemma LowerIsWord(s: string, w: string)
    requires forall i | 0 <= i < |w| :: 'a' <= w[i] <= 'z'
    ensures Lower(s) == w <==> SpelledAnyCase(s, w)
  {
    if SpelledAnyCase(s, w) {
      forall i | 0 <= i < |s|
        ensures Lower(s)[i] == w[i]
      {
      }
      assert Lower(s) == w;
    }
    if Lower(s) == w {
      forall i | 0 <= i < |s|
        ensures s[i] == w[i] || s[i] == UpperChar(w[i])
      {
        assert LowerChar(s[i]) == w[i];
      }
    }
  }

  /** Python's `needle in hay` for strings: `needle` starts at some
      position of `hay`. */
  predicate Contains(hay: string, needle: string)
    decreases |hay|
  {
    StartsWith(hay, needle) || (|hay| > 0 && Contains(hay[1..], needle))
  }

  /** `s.startswith(prefix)`. */
  predicate StartsWith(s: string, prefix: string) {
    |prefix| <= |s| && s[..|prefix|] == prefix
  }
}

=== FILE: turnloop.dfy ===
/** The bounded decision loop of one user turn (lines 174-220 of
    agent_fun.py), stated over an abstract driver: what the model decides
    when shown a history, and what a tool call adds to it. The driver the
    client actually uses is built in module Conversation. */
module TurnLoop {
  import opened Json
  import opened PyRuntime
  import opened Text

  /** The most decisions one user turn may evaluate. */
  const MaxSteps: nat := 8

  const GiveUpMessage: string :=
    "I tried several steps but couldn't finish your request. Could you rephrase?"

  datatype Role = System | User | Assistant
  datatype Entry = Entry(role: Role, content: string)

  /** A request to the tool host: tool name and argument value. */
  datatype ToolCall = ToolCall(name: string, args: Json)

  /** How the loop reads one decision. */
  datatype Step =
    | Answer(text: string)   // "action" is exactly "final"
    | Unknown(name: string)  // empty or unlisted tool name
    | Invoke(call: ToolCall) // a listed tool to call
    | Malformed(value: Json) // not an object: `.get` raises and the program stops

  /** What a tool call does to the history: one appended entry, or an
      exception nothing catches. */
  datatype Reaction = Continue(entry: Entry) | Crash(error: PyError)

  /** The decision the model makes on a history, and the effect of calling
      a tool at a history. */
  datatype Driver = Driver(decide: seq<Entry> -> Step, react: (seq<Entry>, ToolCall) -> Reaction)

  /** How a turn ended. */
  datatype Ending =
    | Quit           // empty input or exit/quit: the session ends
    | TriviaShown    // the trivia shortcut succeeded
    | TriviaFailed   // the trivia shortcut raised
    | Answered       // a final decision
    | UnknownTool    // a decision naming no listed tool
    | GaveUp         // the step budget ran out
    | Crashed        // an uncaught exception ended the program
  {
    /** The endings the decision loop produces. */
    predicate ByLoop() {
      Answered? || UnknownTool? || GaveUp? || Crashed?
    }

    /** The endings the trivia shortcut produces. */
    predicate ByTrivia() {
      TriviaShown? || TriviaFailed?
    }
  }

  /** The history after a turn, the tool calls it issued in order, and how
      many times it consulted the model. */
  datatype Outcome = Outcome(history: seq<Entry>, calls: seq<ToolCall>, consultations: nat, ending: Ending)

  /** A history that starts with `history + [e]` starts with `history`, and
      holds `e` right after it. */
  lemma ExtensionPrefix(history: seq<Entry>, e: Entry, longer: seq<Entry>)
    requires |history| + 1 <= |longer| && longer[..|history| + 1] == history + [e]
    ensures longer[..|history|] == history && longer[|history|] == e
  {
    assert longer[..|history|] == (history + [e])[..|history|];
    assert longer[|history|] == (history + [e])[|history|];
  }

  /** Starting with a history is transitive. */
  lemma PrefixTransitive(a: seq<Entry>, b: seq<Entry>, c: seq<Entry>)
    requires |a| <= |b| && b[..|a|] == a
    requires |b| <= |c| && c[..|b|] == b
    ensures c[..|a|] == a
  {
    assert c[..|a|] == c[..|b|][..|a|];
  }

  function ToolErrorEntry(name: string, error: string): Entry {
    Entry(User, "[Tool Error] Tool '" + name + "' failed: " + error)
  }

  function ToolResultEntry(summary: string): Entry {
    Entry(User, "[Tool Result] " + summary)
  }

  /** The newest entry of a history. */
  function LastEntry(history: seq<Entry>): Entry
    requires |history| > 0
  {
    history[|history| - 1]
  }

  /** Entries the loop appends without ending the turn. */
  predicate IsToolEntry(e: Entry) {
    e.role == User && (StartsWith(e.content, "[Tool Error] ") || StartsWith(e.content, "[Tool Result] "))
  }

  /** The `for step in range(8)` loop entered at step `step` with history
      `history`, followed by the give-up message when no step responded. */
  function DecisionLoop(d: Driver, history: seq<Entry>, step: nat): (o: Outcome)
    requires step <= MaxSteps
    ensures o.consultations <= MaxSteps - step
    ensures |history| <= |o.history| && o.history[..|history|] == history
    ensures o.ending.ByLoop()
    ensures |o.calls| <= o.consultations
    ensures o.ending != Crashed ==>
              |o.history| == |history| + o.consultations + (if o.ending == GaveUp then 1 else 0)
    ensures o.ending != Crashed ==>
              |o.calls| + (if o.ending == GaveUp then 0 else 1) == o.consultations
    decreases MaxSteps - step
  {
    if step == MaxSteps then
      Outcome(history + [Entry(Assistant, GiveUpMessage)], [], 0, GaveUp)
    else
      match d.decide(history)
      case Answer(text) =>
        Outcome(history + [Entry(Assistant, text)], [], 1, Answered)
      case Unknown(name) =>
        Outcome(history + [Entry(Assistant, "Unknown tool: " + name)], [], 1, UnknownTool)
      case Malformed(_) =>
        Outcome(history, [], 1, Crashed)
      case Invoke(call) =>
        match d.react(history, call)
        case Crash(_) => Outcome(history, [call], 1, Crashed)
        case Continue(entry) =>
          var h' := history + [entry];
          var rest := DecisionLoop(d, h', step + 1);
          assert rest.history[..|history|] == h'[..|history|];
          Outcome(rest.history, [call] + rest.calls, rest.consultations + 1, rest.ending)
  }

  /** Every entry a tool call can add satisfies `kind`. */
  ghost predicate ReactsWith(d: Driver, kind: Entry -> bool) {
    forall h, c :: d.react(h, c).Continue? ==> kind(d.react(h, c).entry)
  }

  /** A turn that does not crash ends with an assistant entry: the answer,
      the unknown-tool message or the give-up message. */
  lemma {:induction false} LoopEndsWithReply(d: Driver, history: seq<Entry>, step: nat)
    requires step <= MaxSteps
    ensures var o := DecisionLoop(d, history, step);
            o.ending != Crashed ==> |o.history| > |history| && LastEntry(o.history).role == Assistant
    decreases MaxSteps - step
  {
    if step < MaxSteps && d.decide(history).Invoke? {
      var call := d.decide(history).call;
      if d.react(history, call).Continue? {
        ToolCallContinuesLoop(d, history, step);
        LoopEndsWithReply(d, history + [d.react(history, call).entry], step + 1);
      }
    } else {
      var o := DecisionLoop(d, history, step);
      if o.ending != Crashed {
        assert |o.history| == |history| + 1;
        assert o.history[|history|].role == Assistant;
      }
    }
  }

  /** Within one turn, every entry the loop appends comes from a tool call
      except the last, which is the assistant's reply that ends the turn. */
  lemma {:induction false} LoopAppendsToolEntries(d: Driver, kind: Entry -> bool, history: seq<Entry>, step: nat)
    requires ReactsWith(d, kind)
    requires step <= MaxSteps
    ensures var o := DecisionLoop(d, history, step);
            o.ending != Crashed ==> forall i | |history| <= i < |o.history| - 1 :: kind(o.history[i])
    decreases MaxSteps - step
  {
    if step < MaxSteps && d.decide(history).Invoke? {
      var call := d.decide(history).call;
      if d.react(history, call).Continue? {
        var entry := d.react(history, call).entry;
        var h' := history + [entry];
        ToolCallContinuesLoop(d, history, step);
        LoopAppendsToolEntries(d, kind, h', step + 1);
        var rest := DecisionLoop(d, h', step + 1);
        if rest.ending != Crashed {
          assert rest.history[|history|] == h'[|history|] == entry;
          forall i | |history| <= i < |rest.history| - 1
            ensures kind(rest.history[i])
          {
            if i > |history| {
              assert |h'| <= i;
            }
          }
        }
      }
    }
  }

  /** The loop gives up only after using every remaining step, and then its
      last entry is the canned request to rephrase. */
  lemma {:induction false} GiveUpUsesAllSteps(d: Driver, history: seq<Entry>, step: nat)
    requires step <= MaxSteps
    ensures var o := DecisionLoop(d, history, step);
            o.ending == GaveUp ==>
              && o.consultations == MaxSteps - step
              && |o.history| > 0
              && LastEntry(o.history) == Entry(Assistant, GiveUpMessage)
    decreases MaxSteps - step
  {
    if step < MaxSteps && d.decide(history).Invoke? {
      var call := d.decide(history).call;
      if d.react(history, call).Continue? {
        GiveUpUsesAllSteps(d, history + [d.react(history, call).entry], step + 1);
      }
    }
  }

  /** When every decision calls a tool and no call crashes, the loop issues
      one call per remaining step and then gives up: nine tool-call decisions
      in a row are never all evaluated. */
  lemma {:induction false} EndlessToolCallsGiveUp(d: Driver, history: seq<Entry>, step: nat)
    requires step <= MaxSteps
    requires forall h :: d.decide(h).Invoke?
    requires forall h, c :: d.react(h, c).Continue?
    ensures var o := DecisionLoop(d, history, step);
            && o.ending == GaveUp
            && o.consultations == MaxSteps - step
            && |o.calls| == MaxSteps - step
    decreases MaxSteps - step
  {
    if step < MaxSteps {
      var call := d.decide(history).call;
      EndlessToolCallsGiveUp(d, history + [d.react(history, call).entry], step + 1);
    }
  }

  /** Every tool call the loop issues is one the driver decided on: if the
      driver only ever calls tools from `tools`, so does the loop. */
  lemma {:induction false} LoopCallsOnlyDecidedTools(d: Driver, tools: set<string>, history: seq<Entry>, step: nat)
    requires step <= MaxSteps
    requires forall h :: d.decide(h).Invoke? ==> d.decide(h).call.name in tools
    ensures forall c | c in DecisionLoop(d, history, step).calls :: c.name in tools
    decreases MaxSteps - step
  {
    if step < MaxSteps && d.decide(history).Invoke? {
      var call := d.decide(history).call;
      if d.react(history, call).Continue? {
        LoopCallsOnlyDecidedTools(d, tools, history + [d.react(history, call).entry], step + 1);
      }
    }
  }

  /** A final decision ends the loop at once with exactly one assistant
      entry and no tool call. */
  lemma AnswerEndsLoop(d: Driver, history: seq<Entry>, step: nat)
    requires step < MaxSteps
    requires d.decide(history).Answer?
    ensures DecisionLoop(d, history, step)
            == Outcome(history + [Entry(Assistant, d.decide(history).text)], [], 1, Answered)
  {
  }

  /** A decision naming no listed tool ends the loop at once with one
      assistant entry and no tool call. */
  lemma UnknownToolEndsLoop(d: Driver, history: seq<Entry>, step: nat)
    requires step < MaxSteps
    requires d.decide(history).Unknown?
    ensures DecisionLoop(d, history, step)
            == Outcome(history + [Entry(Assistant, "Unknown tool: " + d.decide(history).name)], [], 1, UnknownTool)
  {
  }

  /** A tool call that adds an entry uses up one step and the loop goes on
      from the extended history. */
  lemma ToolCallContinuesLoop(d: Driver, history: seq<Entry>, step: nat)
    requires step < MaxSteps
    requires d.decide(history).Invoke?
    requires d.react(history, d.decide(history).call).Continue?
    ensures var call := d.decide(history).call;
            var rest := DecisionLoop(d, history + [d.react(history, call).entry], step + 1);
            DecisionLoop(d, history, step)
            == Outcome(rest.history, [call] + rest.calls, rest.consultations + 1, rest.ending)
  {
  }
}

=== FILE: wrappers.dfy ===
/** Optional values, used for Python's `None`-or-value results (`dict.get`,
    a parse that may fail), and results that may be an exception instead. */
module Wrappers {

  datatype Option<+T> = None | Some(value: T) {

    /** The wrapped value, or `default` when there is none. */
    function GetOr(default: T): T {
      match this
      case Some(v) => v
      case None => default
    }
  }

  /** A value, or the exception raised while computing it. `:-` propagates
      the exception, as an uncaught Python exception propagates. */
  datatype Result<+T, +E> = Ok(value: T) | Err(error: E) {

    predicate IsFailure() {
      Err?
    }

    function PropagateFailure<U>(): Result<U, E>
      requires Err?
    {
      Err(error)
    }

    function Extract(): T
      requires Ok?
    {
      value
    }
  }
}
